=== FILE: README.md ===
# CrudMongoDB order-item parsing, search filters and menu dispatch, in Dafny

CrudMongoDB manages customers (`clientes`), products (`productos`) and orders
(`pedidos`) in MongoDB. It has two front ends that do the same things: a Flask
web app (`src/main.py`) and an interactive console menu
(`tests/ExternalTest.py`). Almost all of it is database and presentation glue.
This project models the pure logic inside the request handlers and the menu
functions:

- **Order-item parsing.** Both front ends turn an items field such as
  `"A:1, B:2"` into a list of `{sku, cantidad}` items. The web handler
  `new_pedido` strips each comma-separated entry. It skips an entry that is
  blank after stripping and logs the other rejected entries. The console's
  `crear_pedido` strips the whole line, does not strip or skip entries, and
  prints a message for every rejected entry.
- **Order creation.** The web handler always inserts the order with
  `estado = 'pendiente'`, even when the item list is empty. The console inserts
  only when at least one item survived, and it sets no `estado`.
- **Search filters.** The web lists use a case-insensitive `$regex` on two
  fields, or no filter at all when the query is empty. The console searches use
  exact equality on two fields.
- **Menu dispatch.** `main_menu` maps a line to quit, a section, or "opción
  inválida". `submenu` maps a line to back, run action *i*, out of range, or
  invalid entry.

Modules, one per component:

| file | module | contents |
|---|---|---|
| `wrappers.dfy` | `Wrappers` | `Option` |
| `text.dfy` | `Text` | Python's `str.strip()`, `str.split(sep)`, `sep.join`, `int(s.strip())`, `str(n)`, ASCII lower-casing, `in` on strings |
| `items.dfy` | `Items` | both item parsers, their agreement, normal form |
| `orders.dfy` | `Orders` | the order documents both front ends insert |
| `search.dfy` | `Search` | web and console search filters and what they select |
| `menu.dfy` | `Menu` | main-menu and submenu dispatch |

Modelling choices:

- Strings are `seq<char>`.
- "Whitespace" means the ASCII characters `str.strip()` removes: space, tab,
  line feed, vertical tab, form feed, carriage return, and 0x1C-0x1F.
- `int(s.strip())` accepts an optional `+`/`-` followed by one or more ASCII
  digits, once the whitespace above is removed. `None` stands for the
  `ValueError` it raises. Every `int()` call of the program receives an
  already stripped string.
- `ObjectId(...)` is a library call. It is a parameter
  `parseId: string -> Option<Id>`, where `None` means the call raised.
- A `$regex` with option `i` is read literally: a case-insensitive substring
  match with ASCII case folding.

`:5` is kept as an item with an empty sku (`Items.WebEmptySku`). Of the input
`"A:1, B:2, bad, C:x, :5, D:3"` only `bad` and `C:x` are reported.

## Model

| member | source | states |
|---|---|---|
| Text.Strip | src/main.py:153 | the stripped form neither starts nor ends with whitespace and is no longer than the input |
| Text.Padding | src/main.py:153 | the input is whitespace, then its stripped form, then whitespace, so only whitespace is removed and only at the ends |
| Text.StripIgnoresPadding | src/main.py:153 | whitespace added on either side of a string does not change its stripped form |
| Text.StripPadded | src/main.py:153 | stripping `w1 + m + w2` gives `m` whenever `w1`, `w2` are whitespace and `m` has no whitespace ends, so the stripped form is unique |
| Text.StripIdempotent | src/main.py:160 | stripping twice equals stripping once (the sku and quantity are stripped parts of an already stripped entry) |
| Text.StripEmptyIffBlank | src/main.py:153-155 | a string strips to empty exactly when it is all whitespace |
| Text.Split | src/main.py:152 | `split(sep)` always yields one more piece than the number of separators, and no piece contains the separator |
| Text.JoinSplit | src/main.py:152 | joining the pieces with the separator gives the input back |
| Text.SplitJoin | src/main.py:152 | splitting a join of separator-free pieces gives the pieces back |
| Text.SplitPaddedPieces | tests/ExternalTest.py:179-186 | whitespace around a string changes neither the number of pieces nor any piece's stripped form |
| Text.ParseInt | src/main.py:162 | `int(s.strip())` succeeds exactly on an optional sign followed by digits, once `str.strip()` whitespace around them is removed; unsigned literals give non-negative values |
| Text.ParseShow | src/main.py:162 | `int(str(n)) == n` for every integer, negative ones included |
| Text.ParseIntLiteral | src/main.py:162 | whitespace, an optional `+` or `-`, any number of zeros, a numeral and whitespace parse to the numeral's value, negated after `-` |
| Text.ParseIntShape | src/main.py:162 | every accepted string strips to an optional sign, zeros and a numeral, and `int()` gives exactly that signed value, so with `ParseIntLiteral` the value of every accepted input is fixed |
| Text.ParseIntCore | tests/ExternalTest.py:188 | a sign, leading zeros and a numeral form a literal without whitespace ends whose value is the signed numeral |
| Text.LiteralExamples | tests/ExternalTest.py:188 | "+5", "007", "-0" and "-007" give 5, 7, 0 and -7 |
| Text.ContainsIffOccurs | src/main.py:48 | the substring scan succeeds exactly when the query occurs at some position of the text |
| Items.WebEntry | src/main.py:153-166 | an entry is skipped silently exactly when it is blank; it is reported as malformed exactly when it is not blank and does not hold exactly one ':'; a kept sku holds no ':' and has no whitespace ends |
| Items.ConsoleEntry | tests/ExternalTest.py:182-190 | an entry is never skipped silently; it is reported as malformed exactly when it does not hold exactly one ':' |
| Items.WebEntryOfPair | src/main.py:156-166 | `a:b` (no other ':') is kept as `{sku: strip(a), cantidad: int(b)}` when `b` is an integer and is otherwise reported as a bad quantity quoting the stripped entry |
| Items.ConsoleEntryOfPair | tests/ExternalTest.py:182-190 | the console keeps `a:b` as the same item and otherwise reports a bad quantity quoting the stripped sku |
| Items.WebEmptySku | src/main.py:160-163 | an entry with nothing but whitespace before the ':' is kept with an empty sku |
| Items.ConsoleEmptySku | tests/ExternalTest.py:186-188 | the console keeps such an entry with an empty sku too |
| Items.EntriesAgree | tests/ExternalTest.py:182-190 | on every single entry the console keeps an item exactly when the web handler does, and the same item |
| Items.ItemsOf | src/main.py:163 | no more items are collected than there are entries |
| Items.KeptPositions | src/main.py:152-163 | item k is the item kept from the entry at the k-th listed position |
| Items.KeptPositionsIncrease | src/main.py:152-163 | the positions strictly increase: items keep their entries' relative order and no entry yields two items |
| Items.KeptPositionListed | src/main.py:152-163 | every kept entry's position is listed: no kept entry is lost |
| Items.OutcomeCount | src/main.py:152-166 | every entry is kept, reported or skipped: items plus diagnostics plus skips equals the number of entries |
| Items.ParseWeb | src/main.py:151-166 | the web handler yields at most `count(',') + 1` items |
| Items.ParseConsole | tests/ExternalTest.py:179-190 | the console yields exactly one item or one message per comma-separated entry of the stripped line |
| Items.WebIgnoresOuterSpace | src/main.py:152-153 | whitespace around the whole field changes nothing in the web parse, diagnostics included |
| Items.ConsoleAgreesWithWeb | tests/ExternalTest.py:179-190 | for every input the console keeps exactly the web handler's item list, in the same order |
| Items.WebBlankInput | src/main.py:153-155 | a blank or empty field gives no items and no diagnostics (no error log) |
| Items.DiagnosticsOf | src/main.py:156-166 | a diagnostic is reported exactly when an entry was dropped with it, never more diagnostics than entries; the same holds for the console prints at tests/ExternalTest.py:183-190 |
| Items.ConsoleBlankInput | tests/ExternalTest.py:179-185 | a blank or empty line gives no items and one "formato inválido" message for the empty entry |
| Items.WebItemsWellFormed | src/main.py:152-163 | every kept sku holds no ',' or ':' and has no whitespace ends |
| Items.WebEntrySerialized | src/main.py:156-163 | a well-formed item's `sku:qty` text is kept as that very item |
| Items.RenderParse | src/main.py:152-163 | rendering well-formed items as `sku:qty,...` and parsing gives the items back with nothing reported |
| Items.NormalisationIdempotent | src/main.py:152-163 | rendering the parsed items and parsing again gives the same item list |
| Orders.CreateOrderWeb | src/main.py:147-168 | the web handler never refuses for lack of items; it fails on a missing `cliente` field exactly when the field is absent, and on the id exactly when it is present and does not parse; it inserts exactly when the form has a customer id that parses; the order stores that id, the items parsed from the `items` field (empty when absent), and is always pending |
| Orders.CreateOrderConsole | tests/ExternalTest.py:178-195 | the console inserts nothing exactly when no item survives, fails on the id only when items survived, and inserts the parsed non-empty list under the stripped customer id, with no status |
| Orders.WebOrderWithoutItems | src/main.py:149-168 | a blank or missing items field still creates a pending order, with an empty list |
| Orders.WebOrderItemsStable | src/main.py:151-168 | re-submitting an order's items in `sku:qty,...` form stores the same list |
| Orders.FrontEndsStoreSameItems | tests/ExternalTest.py:191-195 | when both front ends insert for the same items text they store the same list and differ in the status field |
| Search.CustomerWebQuery | src/main.py:49 | a customer is listed iff the query is empty or its `nombre` or `email` contains the query, ignoring case |
| Search.ProductWebQuery | src/main.py:95 | a product is listed iff the query is empty or its `sku` or `nombre` contains the query, ignoring case |
| Search.ConsoleQuery | tests/ExternalTest.py:71-72 | the console filter is never unrestricted and selects a document iff one of the two fields equals the stripped term, case included |
| Search.CustomerConsoleQuery | tests/ExternalTest.py:72 | a customer is found iff its `email` or `nombre` equals the stripped term |
| Search.ProductConsoleQuery | tests/ExternalTest.py:138 | a product is found iff its `sku` or `nombre` equals the stripped term |
| Search.WebQuery | src/main.py:48-49 | the web filter is unrestricted exactly when the query is empty |
| Search.WebQueryMeaning | src/main.py:94-95 | a document is selected iff the query is empty or one of the two fields contains the query, ignoring case |
| Search.ConsoleQueryMeaning | tests/ExternalTest.py:71-72 | a document is selected iff one of the two fields equals the stripped term exactly, case included |
| Search.ConsoleHitIsWebHit | tests/ExternalTest.py:138 | every document the console search finds is also found by the web filter for the same term and fields |
| Search.EmptyTermDiffers | tests/ExternalTest.py:71-72 | on an empty term the web lists a document that the console search does not find |
| Search.CaseInsensitiveExample | src/main.py:48-49 | the query "jo" matches "John" and "MOJO" but not "Amy" |
| Menu.MainMenuChoice | tests/ExternalTest.py:262-273 | a line is an invalid option exactly when its stripped form is none of '0', '1', '2', '3' |
| Menu.MainMenuKeys | tests/ExternalTest.py:263-271 | '0' quits and '1', '2', '3' open customers, products and orders; each choice is selected by its key and nothing else |
| Menu.SubmenuChoice | tests/ExternalTest.py:285-294 | the line goes back exactly when it strips to '0', is an invalid entry exactly when `int()` rejects it, and only runs valid indices |
| Menu.SubmenuRuns | tests/ExternalTest.py:287-290 | action i runs exactly when the line is the integer i + 1 and i is below the number of actions |
| Menu.SubmenuRunsInRange | tests/ExternalTest.py:287-292 | some action runs exactly when `int()` of the line is between 1 and the number of actions |
| Menu.SubmenuNumberRuns | tests/ExternalTest.py:282-290 | typing an action's displayed number runs that action |
| Menu.OtherZerosOutOfRange | tests/ExternalTest.py:286-292 | a line `int()` reads as 0 that does not strip to "0" itself, such as "00", "+0" or "-0", does not go back but is out of range |
| Menu.LeadingZeroRuns | tests/ExternalTest.py:288-290 | typing "01" runs the first action |
| Menu.SectionChoice | tests/ExternalTest.py:267-271 | operation i (create, list, search, update, delete) runs iff `int()` of the line is i + 1, and nothing runs iff the line is no integer from 1 to 5 |

## Left out

- Flask routing, templates, `flash`, `redirect` and the 404 handler are presentation.
- The MongoClient connection, the URI construction and the store calls `insert_one`, `find`, `update_one` and `delete_one` belong to the database library. The model stops at the document or filter handed to the store.
- `ObjectId(...)` parsing is a library call. It is the parameter `parseId`.
- `$regex` semantics. The query is passed to the store as a pattern without escaping, so metacharacters change its meaning. The model reads it as a literal substring.
- Search.WebQueryMeaning: case folding covers ASCII letters only, not the store's full Unicode case-insensitivity.
- Prices go through `float(...)` in `new_producto`, `edit_producto`, `crear_producto` and `actualizar_producto`. Floating point is not modelled.
- Text.ParseInt: does not accept `int()`'s digit-group underscores (`1_000`) or non-ASCII digits. It also does not reproduce the interpreter's limit on the number of digits. It models `int(s.strip())`, not bare `int(s)`: the latter rejects the separators 0x1C-0x1F around a literal, but no call in the program sees them, since each argument is stripped first.
- Text.Strip: removes only ASCII whitespace, not the non-ASCII whitespace `str.strip()` also removes.
- The informational and debug logs of `new_pedido` (src/main.py:150, :164, :167) carry no decision and are not modelled; only the error logs are, as diagnostics.
- `input()`, `print()`, `clear_screen`, logging, and the `while True` loops of both menus are I/O. Each dispatch function models one pass of its loop.
- Menu.SubmenuChoice: does not model an action that itself raises `ValueError` inside the `try`, which would also print "Entrada inválida". None of the five actions lets one escape.
- Customer and product create, list, update and delete, and order list, detail, update and delete, only pass form or console fields to the store. They hold no logic beyond the store call.

=== FILE: items.dfy ===
/** The two order-item parsers. The web form handler (`new_pedido`) and the
    console menu (`crear_pedido`) both turn text such as "A:1, B:2" into a
    list of items; they differ in what they trim, in what they skip silently
    and in what they report. */
module Items {
  import opened Wrappers
  import opened Text

  /** One order line: `{'sku': sku, 'cantidad': qty}`. */
  datatype Item = Item(sku: string, qty: int)

  /** What a parser reports about an entry it drops. */
  datatype Diagnostic =
    | MalformedEntry(entry: string)      // the entry does not split into two parts on ':'
    | InvalidQuantity(subject: string)   // the quantity is not an integer

  /** What one comma-separated entry contributes. */
  datatype Outcome = Skipped | Kept(item: Item) | Dropped(diagnostic: Diagnostic)

  /** The items kept, in order, and the diagnostics, in order. */
  datatype Parsed = Parsed(items: seq<Item>, diagnostics: seq<Diagnostic>)

  // ---------------------------------------------------------------- one entry

  /** One entry as the web handler treats it: strip it, skip it silently if
      that leaves nothing, otherwise split on ':' and keep it when there are
      exactly two parts and the stripped second part is an integer. Its
      diagnostics quote the stripped entry. */
  function WebEntry(pair: string): (o: Outcome)
    ensures o.Skipped? <==> AllSpace(pair)
    ensures o.Dropped? && o.diagnostic.MalformedEntry? <==> !AllSpace(pair) && multiset(pair)[':'] != 1
    ensures o.Kept? ==> NoSpaceEnds(o.item.sku) && ':' !in o.item.sku
    ensures o.Kept? && ',' !in pair ==> ',' !in o.item.sku
  {
    StripEmptyIffBlank(pair);
    StripCount(pair, ':');
    var p := Strip(pair);
    if p == "" then Skipped
    else
      var parts := Split(p, ':');
      if |parts| != 2 then Dropped(MalformedEntry(p))
      else
        match ParseInt(Strip(parts[1]))
        case Some(n) =>
          SkuChars(pair, parts[0]);
          Kept(Item(Strip(parts[0]), n))
        case None => Dropped(InvalidQuantity(p))
  }

  /** A comma absent from an entry is absent from the first ':'-part of its
      stripped form and from that part's stripped form. */
  lemma SkuChars(pair: string, part: string)
    requires |Split(Strip(pair), ':')| > 0 && part == Split(Strip(pair), ':')[0]
    ensures ',' !in pair ==> ',' !in Strip(part)
  {
    if ',' !in pair {
      StripCount(pair, ',');
      SplitChars(Strip(pair), ':', ',');
      StripCount(part, ',');
    }
  }

  /** One entry as the console treats it: split on ':' without stripping or
      skipping, keep it when there are exactly two parts and the stripped
      second part is an integer. Its diagnostics quote the raw entry, or the
      stripped sku for a bad quantity. */
  function ConsoleEntry(pair: string): (o: Outcome)
    ensures !o.Skipped?
    ensures o.Dropped? && o.diagnostic.MalformedEntry? <==> multiset(pair)[':'] != 1
    ensures o.Kept? ==> NoSpaceEnds(o.item.sku) && ':' !in o.item.sku
  {
    var parts := Split(pair, ':');
    if |parts| != 2 then Dropped(MalformedEntry(pair))
    else
      var sku := Strip(parts[0]);
      match ParseInt(Strip(parts[1]))
      case Some(n) => Kept(Item(sku, n))
      case None => Dropped(InvalidQuantity(sku))
  }

  /** An entry with exactly one ':' is kept by the web handler exactly when
      the text after the ':' is an integer; the item is the stripped text
      before it and that integer. Empty skus and signed, zero or negative
      quantities are all accepted. */
  lemma WebEntryOfPair(a: string, b: string)
    requires ':' !in a && ':' !in b
    ensures ParseInt(b).Some? ==> WebEntry(a + ":" + b) == Kept(Item(Strip(a), ParseInt(b).value))
    ensures ParseInt(b).None? ==> WebEntry(a + ":" + b) == Dropped(InvalidQuantity(Strip(a + ":" + b)))
  {
    PairPieces(a, b);
    ParseIntStripped(b);
    WebEntryTwoParts(a + ":" + b, Strip(a), b);
  }

  /** The web outcome of an entry whose stripped form splits in two. */
  lemma WebEntryTwoParts(pair: string, sku: string, qty: string)
    requires Strip(pair) != "" && |Split(Strip(pair), ':')| == 2
    requires Strip(Split(Strip(pair), ':')[0]) == sku
    requires ParseInt(Strip(Split(Strip(pair), ':')[1])) == ParseInt(qty)
    ensures ParseInt(qty).Some? ==> WebEntry(pair) == Kept(Item(sku, ParseInt(qty).value))
    ensures ParseInt(qty).None? ==> WebEntry(pair) == Dropped(InvalidQuantity(Strip(pair)))
  {
  }

  /** The stripped form of `a:b` is non-empty and splits into two parts
      whose stripped forms are those of `a` and `b`. */
  lemma PairPieces(a: string, b: string)
    requires ':' !in a && ':' !in b
    ensures var p := Strip(a + ":" + b);
      && p != ""
      && |Split(p, ':')| == 2
      && Strip(Split(p, ':')[0]) == Strip(a)
      && Strip(Split(p, ':')[1]) == Strip(b)
      && ParseInt(Strip(Split(p, ':')[1])) == ParseInt(Strip(b))
  {
    var pair := a + ":" + b;
    SplitPair(a, b, ':');
    assert pair[|a|] == ':';
    StripEmptyIffBlank(pair);
    var w1, w2 := Padding(pair);
    SplitPaddedPieces(w1, Strip(pair), w2, ':');
  }

  /** The console keeps the same entries with the same items. */
  lemma ConsoleEntryOfPair(a: string, b: string)
    requires ':' !in a && ':' !in b
    ensures ParseInt(b).Some? ==> ConsoleEntry(a + ":" + b) == Kept(Item(Strip(a), ParseInt(b).value))
    ensures ParseInt(b).None? ==> ConsoleEntry(a + ":" + b) == Dropped(InvalidQuantity(Strip(a)))
  {
    SplitPair(a, b, ':');
    ConsoleEntryTwoParts(a + ":" + b, a, b);
  }

  /** The console outcome of an entry that splits in two. */
  lemma ConsoleEntryTwoParts(pair: string, a: string, b: string)
    requires Split(pair, ':') == [a, b]
    ensures ParseInt(b).Some? ==> ConsoleEntry(pair) == Kept(Item(Strip(a), ParseInt(b).value))
    ensures ParseInt(b).None? ==> ConsoleEntry(pair) == Dropped(InvalidQuantity(Strip(a)))
  {
    ParseIntStripped(b);
  }

  /** On a single entry the two parsers keep the same item or both keep
      nothing; only what they report differs. */
  lemma EntriesAgree(pair: string)
    ensures WebEntry(pair).Kept? <==> ConsoleEntry(pair).Kept?
    ensures WebEntry(pair).Kept? ==> WebEntry(pair).item == ConsoleEntry(pair).item
  {
    var w1, w2 := Padding(pair);
    SplitPaddedPieces(w1, Strip(pair), w2, ':');
  }

  // ---------------------------------------------------------------- collecting

  /** The outcome of every entry, in entry order. */
  function Outcomes(pieces: seq<string>, entry: string -> Outcome): (outs: seq<Outcome>)
  {
    seq(|pieces|, i requires 0 <= i < |pieces| => entry(pieces[i]))
  }

  /** The kept items, in order: `items.append(...)` in the loop. */
  function ItemsOf(outs: seq<Outcome>): (items: seq<Item>)
    ensures |items| <= |outs|
    decreases |outs|
  {
    if |outs| == 0 then []
    else if outs[0].Kept? then [outs[0].item] + ItemsOf(outs[1..])
    else ItemsOf(outs[1..])
  }

  /** The diagnostics, in order: the error log or print calls in the loop.
      A diagnostic is reported exactly when some entry was dropped with it. */
  function DiagnosticsOf(outs: seq<Outcome>): (diags: seq<Diagnostic>)
    ensures |diags| <= |outs|
    ensures forall d :: d in diags <==> Dropped(d) in outs
    decreases |outs|
  {
    if |outs| == 0 then []
    else if outs[0].Dropped? then [outs[0].diagnostic] + DiagnosticsOf(outs[1..])
    else DiagnosticsOf(outs[1..])
  }

  function Collect(outs: seq<Outcome>): Parsed {
    Parsed(ItemsOf(outs), DiagnosticsOf(outs))
  }

  /** Where each kept item came from: the positions of the kept entries
      (counting from `base`), item k coming from the k-th listed position. */
  function KeptPositions(outs: seq<Outcome>, base: nat): (idx: seq<nat>)
    ensures |idx| == |ItemsOf(outs)|
    ensures forall k :: 0 <= k < |idx| ==>
              base <= idx[k] < base + |outs| && outs[idx[k] - base] == Kept(ItemsOf(outs)[k])
    decreases |outs|
  {
    if |outs| == 0 then []
    else if outs[0].Kept? then [base] + KeptPositions(outs[1..], base + 1)
    else KeptPositions(outs[1..], base + 1)
  }

  /** The positions are strictly increasing: items keep the relative order
      of the entries they come from, and no entry yields two items. */
  lemma {:induction false} KeptPositionsIncrease(outs: seq<Outcome>, base: nat)
    ensures forall k, l :: 0 <= k < l < |KeptPositions(outs, base)| ==>
              KeptPositions(outs, base)[k] < KeptPositions(outs, base)[l]
    decreases |outs|
  {
    if |outs| > 0 {
      KeptPositionsIncrease(outs[1..], base + 1);
    }
  }

  /** Every kept entry's position is listed: no kept entry is lost. */
  lemma {:induction false} KeptPositionListed(outs: seq<Outcome>, base: nat, i: nat)
    requires i < |outs| && outs[i].Kept?
    ensures base + i in KeptPositions(outs, base)
    decreases i
  {
    if i > 0 {
      assert outs[1..][i - 1] == outs[i];
      KeptPositionListed(outs[1..], base + 1, i - 1);
    }
  }

  /** Every entry is kept, reported or skipped, exactly one of the three. */
  lemma {:induction false} OutcomeCount(outs: seq<Outcome>)
    ensures |ItemsOf(outs)| + |DiagnosticsOf(outs)| + SkippedCount(outs) == |outs|
    decreases |outs|
  {
    if |outs| > 0 {
      OutcomeCount(outs[1..]);
    }
  }

  /** How many entries were skipped without a trace. */
  function SkippedCount(outs: seq<Outcome>): nat
    decreases |outs|
  {
    if |outs| == 0 then 0
    else (if outs[0].Skipped? then 1 else 0) + SkippedCount(outs[1..])
  }

  /** Two outcome lists that keep the same items at the same positions
      collect the same items. */
  lemma {:induction false} ItemsOfAgree(a: seq<Outcome>, b: seq<Outcome>)
    requires |a| == |b|
    requires forall i :: 0 <= i < |a| ==> (a[i].Kept? <==> b[i].Kept?)
    requires forall i :: 0 <= i < |a| && a[i].Kept? ==> a[i].item == b[i].item
    ensures ItemsOf(a) == ItemsOf(b)
    decreases |a|
  {
    if |a| > 0 {
      assert forall i :: 0 <= i < |a| - 1 ==> a[1..][i] == a[i + 1] && b[1..][i] == b[i + 1];
      ItemsOfAgree(a[1..], b[1..]);
    }
  }

  /** A list in which every outcome keeps its item collects exactly those
      items, with no diagnostics. */
  lemma {:induction false} CollectAllKept(outs: seq<Outcome>, items: seq<Item>)
    requires |outs| == |items|
    requires forall i :: 0 <= i < |outs| ==> outs[i] == Kept(items[i])
    ensures Collect(outs) == Parsed(items, [])
    decreases |outs|
  {
    if |outs| > 0 {
      assert forall i :: 0 <= i < |outs| - 1 ==> outs[1..][i] == outs[i + 1];
      CollectAllKept(outs[1..], items[1..]);
      assert [items[0]] + items[1..] == items;
    }
  }

  /** A list with no skipped outcome skips nothing. */
  lemma {:induction false} NoneSkipped(outs: seq<Outcome>)
    requires forall i :: 0 <= i < |outs| ==> !outs[i].Skipped?
    ensures SkippedCount(outs) == 0
    decreases |outs|
  {
    if |outs| > 0 {
      assert forall i :: 0 <= i < |outs| - 1 ==> outs[1..][i] == outs[i + 1];
      NoneSkipped(outs[1..]);
    }
  }

  // ---------------------------------------------------------------- whole input

  /** `new_pedido`'s loop: split the raw field on ',' and treat each entry
      as `WebEntry` does. There is at most one item per comma-separated
      entry. */
  function ParseWeb(raw: string): (p: Parsed)
    ensures |p.items| <= multiset(raw)[','] + 1
  {
    Collect(Outcomes(Split(raw, ','), WebEntry))
  }

  /** `crear_pedido`'s loop: strip the line as read, split it on ',' and
      treat each entry as `ConsoleEntry` does. Every entry either yields an
      item or is reported. */
  function ParseConsole(line: string): (p: Parsed)
    ensures |p.items| + |p.diagnostics| == multiset(Strip(line))[','] + 1
  {
    var pieces := Split(Strip(line), ',');
    var outs := Outcomes(pieces, ConsoleEntry);
    assert forall i :: 0 <= i < |outs| ==> outs[i] == ConsoleEntry(pieces[i]);
    OutcomeCount(outs);
    NoneSkipped(outs);
    Collect(outs)
  }

  /** Whitespace around the whole field makes no difference to the web parser. */
  lemma WebIgnoresOuterSpace(raw: string)
    ensures ParseWeb(raw) == ParseWeb(Strip(raw))
  {
    var w1, w2 := Padding(raw);
    SplitPaddedPieces(w1, Strip(raw), w2, ',');
    var x, y := Split(raw, ','), Split(Strip(raw), ',');
    forall i | 0 <= i < |x| ensures WebEntry(x[i]) == WebEntry(y[i]) {
      WebEntryByStrip(x[i], y[i]);
    }
    assert Outcomes(x, WebEntry) == Outcomes(y, WebEntry);
  }

  /** The web outcome of an entry depends only on its stripped form. */
  lemma WebEntryByStrip(x: string, y: string)
    requires Strip(x) == Strip(y)
    ensures WebEntry(x) == WebEntry(y)
  {
  }

  /** The web outcome of the empty field. */
  lemma WebEmptyInput()
    ensures ParseWeb("") == Parsed([], [])
  {
    assert Split("", ',') == [""];
    assert WebEntry("") == Skipped;
    assert Outcomes([""], WebEntry) == [Skipped];
  }

  /** For every input the console parser keeps exactly the items the web
      parser keeps, in the same order; only the diagnostics differ. */
  lemma ConsoleAgreesWithWeb(line: string)
    ensures ParseConsole(line).items == ParseWeb(line).items
  {
    WebIgnoresOuterSpace(line);
    var pieces := Split(Strip(line), ',');
    var web := Outcomes(pieces, WebEntry);
    var console := Outcomes(pieces, ConsoleEntry);
    forall i | 0 <= i < |pieces|
      ensures (web[i].Kept? <==> console[i].Kept?) && (web[i].Kept? ==> web[i].item == console[i].item)
    {
      EntriesAgree(pieces[i]);
    }
    ItemsOfAgree(web, console);
  }

  /** An empty or blank field gives the web handler no items and no
      diagnostics (no error log). */
  lemma WebBlankInput(raw: string)
    requires AllSpace(raw)
    ensures ParseWeb(raw) == Parsed([], [])
  {
    WebIgnoresOuterSpace(raw);
    StripEmptyIffBlank(raw);
    WebEmptyInput();
  }

  /** An empty or blank line gives the console no items and one
      "formato inválido" report for the empty entry. */
  lemma ConsoleBlankInput(line: string)
    requires AllSpace(line)
    ensures ParseConsole(line) == Parsed([], [MalformedEntry("")])
  {
    StripEmptyIffBlank(line);
    assert Split("", ',') == [""];
    assert Split("", ':') == [""];
    assert ConsoleEntry("") == Dropped(MalformedEntry(""));
    assert Outcomes([""], ConsoleEntry) == [Dropped(MalformedEntry(""))];
  }

  // ---------------------------------------------------------------- normal form

  /** An item the web parser can produce: its sku holds no ',' or ':' and
      has no whitespace at either end. */
  predicate WellFormed(it: Item) {
    ',' !in it.sku && ':' !in it.sku && NoSpaceEnds(it.sku)
  }

  /** Every item the web parser keeps is well formed. */
  lemma WebItemsWellFormed(raw: string)
    ensures forall it :: it in ParseWeb(raw).items ==> WellFormed(it)
  {
    var pieces := Split(raw, ',');
    var outs := Outcomes(pieces, WebEntry);
    var idx := KeptPositions(outs, 0);
    forall it | it in ParseWeb(raw).items ensures WellFormed(it) {
      var k :| 0 <= k < |ItemsOf(outs)| && ItemsOf(outs)[k] == it;
      assert outs[idx[k]] == Kept(it);
      assert WebEntry(pieces[idx[k]]) == Kept(it);
    }
  }

  /** `sku:qty`, the text form of one item. */
  function Serialize(it: Item): string {
    it.sku + ":" + Show(it.qty)
  }

  /** The items written back as the web form expects them, joined by ','. */
  function Render(items: seq<Item>): string {
    Join(seq(|items|, k requires 0 <= k < |items| => Serialize(items[k])), ',')
  }

  /** A well-formed item's text form parses back to that item. */
  lemma WebEntrySerialized(it: Item)
    requires WellFormed(it)
    ensures WebEntry(Serialize(it)) == Kept(it)
  {
    var q := Show(it.qty);
    ShowChars(it.qty, ':');
    ParseShow(it.qty);
    StripOfStripped(it.sku);
    WebEntryOfPair(it.sku, q);
  }

  /** Rendering well-formed items and parsing the text gives the items back,
      with nothing reported. */
  lemma RenderParse(items: seq<Item>)
    requires forall i :: 0 <= i < |items| ==> WellFormed(items[i])
    ensures ParseWeb(Render(items)) == Parsed(items, [])
  {
    var texts := seq(|items|, k requires 0 <= k < |items| => Serialize(items[k]));
    if |items| == 0 {
      assert Render(items) == "";
      WebEmptyInput();
    } else {
      forall i | 0 <= i < |texts| ensures ',' !in texts[i] {
        ShowChars(items[i].qty, ',');
      }
      SplitJoin(texts, ',');
      var outs := Outcomes(texts, WebEntry);
      forall i | 0 <= i < |outs| ensures outs[i] == Kept(items[i]) {
        WebEntrySerialized(items[i]);
      }
      CollectAllKept(outs, items);
    }
  }

  /** Normalisation is idempotent: writing the parsed items back as
      `sku:qty,...` and parsing again yields the same items. */
  lemma NormalisationIdempotent(raw: string)
    ensures ParseWeb(Render(ParseWeb(raw).items)).items == ParseWeb(raw).items
  {
    WebItemsWellFormed(raw);
    RenderParse(ParseWeb(raw).items);
  }

  /** An entry with nothing but whitespace before the ':' is kept by the web
      handler, with an empty sku. */
  lemma WebEmptySku(w: string, n: int)
    requires AllSpace(w)
    ensures WebEntry(w + ":" + Show(n)) == Kept(Item("", n))
  {
    EmptySkuPieces(w, n);
    WebEntryOfPair(w, Show(n));
  }

  /** The console keeps such an entry too. */
  lemma ConsoleEmptySku(w: string, n: int)
    requires AllSpace(w)
    ensures ConsoleEntry(w + ":" + Show(n)) == Kept(Item("", n))
  {
    EmptySkuPieces(w, n);
    ConsoleEntryOfPair(w, Show(n));
  }

  lemma EmptySkuPieces(w: string, n: int)
    requires AllSpace(w)
    ensures ':' !in w && ':' !in Show(n)
    ensures Strip(w) == "" && ParseInt(Show(n)) == Some(n)
  {
    assert ':' !in w;
    ShowChars(n, ':');
    ParseShow(n);
    StripEmptyIffBlank(w);
  }
}

=== FILE: menu.dfy ===
/** The console's menu dispatch: the main menu (`main_menu`) picks a section,
    and a section's submenu (`submenu`) picks one of its actions. Each
    function here is one pass of the corresponding loop: it maps the line
    read to exactly one outcome. */
module Menu {
  import opened Wrappers
  import opened Text

  datatype Section = Customers | Products | Orders

  /** The outcome of one main-menu choice. */
  datatype MainChoice = Quit | Open(section: Section) | InvalidOption

  /** The key that selects a main-menu choice. */
  function MainKey(c: MainChoice): string
    requires !c.InvalidOption?
  {
    match c
    case Quit => "0"
    case Open(Customers) => "1"
    case Open(Products) => "2"
    case Open(Orders) => "3"
  }

  /** One pass of `main_menu`: the stripped line '0' leaves, '1', '2' and '3'
      open the customer, product and order sections, anything else is an
      invalid option. */
  function MainMenuChoice(line: string): (c: MainChoice)
    ensures c.InvalidOption? <==> Strip(line) !in {"0", "1", "2", "3"}
  {
    var choice := Strip(line);
    if choice == "0" then Quit
    else if choice == "1" then Open(Customers)
    else if choice == "2" then Open(Products)
    else if choice == "3" then Open(Orders)
    else InvalidOption
  }

  /** Each choice is selected by its key, with or without surrounding
      whitespace, and by nothing else. */
  lemma MainMenuKeys(line: string, c: MainChoice)
    requires !c.InvalidOption?
    ensures MainMenuChoice(line) == c <==> Strip(line) == MainKey(c)
  {
  }

  /** The actions every section offers, in menu order. */
  datatype Operation = Create | List | Find | Update | Delete

  const Operations: seq<Operation> := [Create, List, Find, Update, Delete]

  /** The outcome of one submenu choice. */
  datatype SubChoice = Back | Run(index: nat) | OutOfRange | InvalidEntry

  /** One pass of `submenu` over `count` actions: the stripped line '0'
      goes back; otherwise an integer n runs action n-1 when
      1 <= n <= count and is out of range otherwise; a line `int()` rejects
      is an invalid entry. */
  function SubmenuChoice(line: string, count: nat): (c: SubChoice)
    ensures c.Back? <==> Strip(line) == "0"
    ensures c.InvalidEntry? <==> ParseInt(line).None?
    ensures c.Run? ==> c.index < count
  {
    ParseIntStripped(line);
    var choice := Strip(line);
    if choice == "0" then Back
    else
      match ParseInt(choice)
      case None => InvalidEntry
      case Some(n) => if 1 <= n <= count then Run(n - 1) else OutOfRange
  }

  /** Action i runs exactly when the line is the integer i + 1 and i is a
      valid index. */
  lemma SubmenuRuns(line: string, count: nat, i: nat)
    ensures SubmenuChoice(line, count) == Run(i) <==> i < count && ParseInt(line) == Some(i + 1)
  {
    StripIdempotent(line);
    if ParseInt(line) == Some(i + 1) {
      assert LiteralValue("0") == Some(0);
      assert Strip(line) != "0";
    }
  }

  /** Typing an action's number, `str(i + 1)`, runs that action. */
  lemma SubmenuNumberRuns(count: nat, i: nat)
    requires i < count
    ensures SubmenuChoice(Show(i + 1), count) == Run(i)
  {
    ParseShow(i + 1);
    SubmenuRuns(Show(i + 1), count, i);
  }

  /** Leading zeros are accepted: typing "01" runs the first action. */
  lemma LeadingZeroRuns(count: nat)
    requires 1 <= count
    ensures SubmenuChoice("01", count) == Run(0)
  {
    assert ShowNat(1) == "1";
    ParseIntCore(NoSign, "0", 1);
    assert SignText(NoSign) + ("0" + ShowNat(1)) == "01";
    SubmenuRuns("01", count, 0);
  }

  /** Only the literal '0' goes back: any other spelling of zero ("00",
      "+0", "-0") is an integer outside 1..count, so it is out of range. */
  lemma OtherZerosOutOfRange(line: string, count: nat)
    requires ParseInt(line) == Some(0) && Strip(line) != "0"
    ensures SubmenuChoice(line, count) == OutOfRange
  {
    StripIdempotent(line);
  }

  /** Some action runs exactly when the line is an integer from 1 to
      `count`. */
  lemma SubmenuRunsInRange(line: string, count: nat)
    ensures SubmenuChoice(line, count).Run? <==> exists n :: 1 <= n <= count && ParseInt(line) == Some(n)
  {
    var c := SubmenuChoice(line, count);
    if c.Run? {
      SubmenuRuns(line, count, c.index);
      assert 1 <= c.index + 1 <= count && ParseInt(line) == Some(c.index + 1);
    }
    if exists n :: 1 <= n <= count && ParseInt(line) == Some(n) {
      var n :| 1 <= n <= count && ParseInt(line) == Some(n);
      SubmenuRuns(line, count, n - 1);
    }
  }

  /** The operation a submenu outcome runs, if any. */
  function Pick(c: SubChoice): Option<Operation> {
    if c.Run? && c.index < |Operations| then Some(Operations[c.index]) else None
  }

  /** If outcome `c` runs action i exactly when `int()` gave i + 1, then the
      operation picked is the one at the typed number, and none is picked
      when no number from 1 to 5 was typed. */
  lemma PickByNumber(c: SubChoice, p: Option<int>)
    requires forall i :: 0 <= i < |Operations| ==> (c == Run(i) <==> p == Some(i + 1))
    requires c.Run? ==> c.index < |Operations|
    ensures forall i :: 0 <= i < |Operations| ==> (Pick(c) == Some(Operations[i]) <==> p == Some(i + 1))
    ensures Pick(c).None? <==> forall n :: 1 <= n <= |Operations| ==> p != Some(n)
  {
    if c.Run? {
      assert p == Some(c.index + 1);
    }
    if !c.Run? {
      forall n | 1 <= n <= |Operations| ensures p != Some(n) {
        assert c != Run(n - 1);
      }
    }
  }

  /** A section's submenu: typing 1 to 5 runs create, list, search, update
      and delete respectively, and any other line runs nothing. */
  function SectionChoice(line: string): (op: Option<Operation>)
    ensures forall i :: 0 <= i < |Operations| ==>
      (op == Some(Operations[i]) <==> ParseInt(line) == Some(i + 1))
    ensures op.None? <==> forall n :: 1 <= n <= |Operations| ==> ParseInt(line) != Some(n)
  {
    var c := SubmenuChoice(line, |Operations|);
    forall i | 0 <= i < |Operations| ensures c == Run(i) <==> ParseInt(line) == Some(i + 1) {
      SubmenuRuns(line, |Operations|, i);
    }
    PickByNumber(c, ParseInt(line));
    Pick(c)
  }
}

=== FILE: orders.dfy ===
/** The order documents the two front ends insert when an order is created:
    the web form handler (`new_pedido`) and the console menu
    (`crear_pedido`). */
module Orders {
  import opened Wrappers
  import opened Text
  import opened Items

  /** The status the web handler gives every new order. */
  const Pending: string := "pendiente"

  /** An order document `{'cliente_id': ..., 'items': [...], 'estado': ...}`;
      `status` is `None` when the document has no `estado` field. */
  datatype Order<Id> = Order(customer: Id, items: seq<Item>, status: Option<string>)

  /** How one create request ends. */
  datatype Creation<Id> =
    | Inserted(order: Order<Id>)   // the document passed to `insert_one`
    | NoValidItems                 // console: nothing inserted, "no valid items"
    | InvalidCustomerId            // `ObjectId(...)` rejected the customer id
    | MissingCustomer              // web: the form has no 'cliente' field

  /** The web handler on POST. `form` is the submitted form and `parseId`
      stands for `ObjectId(...)`. A missing 'items' field reads as empty. The
      order is inserted whenever the customer id parses, whatever the items,
      and always as pending. */
  function CreateOrderWeb<Id>(parseId: string -> Option<Id>, form: map<string, string>): (r: Creation<Id>)
    ensures r != NoValidItems
    ensures r.Inserted? <==> "cliente" in form && parseId(form["cliente"]).Some?
    ensures r == MissingCustomer <==> "cliente" !in form
    ensures r == InvalidCustomerId <==> "cliente" in form && parseId(form["cliente"]).None?
    ensures r.Inserted? ==> r.order.status == Some(Pending) && r.order.customer == parseId(form["cliente"]).value
    ensures r.Inserted? ==> r.order.items == ParseWeb(if "items" in form then form["items"] else "").items
  {
    if "cliente" !in form then MissingCustomer
    else
      var raw := if "items" in form then form["items"] else "";
      var items := ParseWeb(raw).items;
      match parseId(form["cliente"])
      case None => InvalidCustomerId
      case Some(id) => Inserted(Order(id, items, Some(Pending)))
  }

  /** The console on "create order". `customerLine` and `itemsLine` are the
      two lines read; both are stripped. Nothing is inserted unless some item
      survived, and the document carries no status. */
  function CreateOrderConsole<Id>(parseId: string -> Option<Id>, customerLine: string, itemsLine: string): (r: Creation<Id>)
    ensures r != MissingCustomer
    ensures r == NoValidItems <==> ParseWeb(itemsLine).items == []
    ensures r == InvalidCustomerId <==> ParseWeb(itemsLine).items != [] && parseId(Strip(customerLine)).None?
    ensures r.Inserted? ==> r.order.status == None && r.order.items != []
    ensures r.Inserted? ==> r.order.items == ParseConsole(itemsLine).items && r.order.customer == parseId(Strip(customerLine)).value
  {
    ConsoleAgreesWithWeb(itemsLine);
    var items := ParseConsole(itemsLine).items;
    if |items| == 0 then NoValidItems
    else
      match parseId(Strip(customerLine))
      case None => InvalidCustomerId
      case Some(id) => Inserted(Order(id, items, None))
  }

  /** The web handler inserts an order even when no item survived: a blank
      or absent 'items' field gives a pending order with an empty list. */
  lemma WebOrderWithoutItems<Id>(parseId: string -> Option<Id>, form: map<string, string>)
    requires "cliente" in form && parseId(form["cliente"]).Some?
    requires "items" !in form || AllSpace(form["items"])
    ensures CreateOrderWeb(parseId, form) == Inserted(Order(parseId(form["cliente"]).value, [], Some(Pending)))
  {
    if "items" in form {
      WebBlankInput(form["items"]);
    } else {
      assert AllSpace("");
      WebBlankInput("");
    }
  }

  /** The items the web handler stores are those written in the form, in
      normal form: storing them again as `sku:qty,...` stores the same list. */
  lemma WebOrderItemsStable<Id>(parseId: string -> Option<Id>, form: map<string, string>)
    requires CreateOrderWeb(parseId, form).Inserted?
    ensures var o := CreateOrderWeb(parseId, form).order;
      CreateOrderWeb(parseId, form["items" := Render(o.items)]).order.items == o.items
  {
    var raw := if "items" in form then form["items"] else "";
    NormalisationIdempotent(raw);
  }

  /** When both front ends insert an order for the same items text, they
      store the same item list; they differ only in the status field. */
  lemma FrontEndsStoreSameItems<Id>(parseId: string -> Option<Id>, form: map<string, string>,
                                    customerLine: string, itemsLine: string)
    requires "items" in form && form["items"] == itemsLine
    requires CreateOrderWeb(parseId, form).Inserted?
    requires CreateOrderConsole(parseId, customerLine, itemsLine).Inserted?
    ensures CreateOrderWeb(parseId, form).order.items == CreateOrderConsole(parseId, customerLine, itemsLine).order.items
    ensures CreateOrderWeb(parseId, form).order.status != CreateOrderConsole(parseId, customerLine, itemsLine).order.status
  {
    ConsoleAgreesWithWeb(itemsLine);
  }
}

=== FILE: search.dfy ===
/** The search filters: the web lists (`list_clientes`, `list_productos`)
    match a free-text query case-insensitively as a substring of either of
    two fields, and the console searches (`buscar_cliente`,
    `buscar_producto`) match a term exactly against either of two fields. */
module Search {
  import opened Text

  /** A stored document's text fields, by field name. */
  type Document = map<string, string>

  /** One field condition of a `$or` filter. */
  datatype Condition =
    | MatchesIgnoringCase(field: string, pattern: string)   // {field: {'$regex': pattern, '$options': 'i'}}
    | Equals(field: string, value: string)                  // {field: value}

  /** A store filter: `{}` or `{'$or': [...]}`. */
  datatype Query = Everything | AnyOf(conditions: seq<Condition>)

  /** A condition holds of a document that has the field and whose value
      satisfies it; a document without the field never satisfies it. */
  predicate Holds(c: Condition, d: Document) {
    c.field in d &&
    match c
    case MatchesIgnoringCase(f, p) => ContainsIgnoringCase(d[f], p)
    case Equals(f, v) => d[f] == v
  }

  predicate Selects(q: Query, d: Document) {
    match q
    case Everything => true
    case AnyOf(cs) => exists i :: 0 <= i < |cs| && Holds(cs[i], d)
  }

  /** The web filter: no restriction for an empty query, otherwise either
      field matching the query, ignoring case. */
  function WebQuery(q: string, first: string, second: string): (r: Query)
    ensures q == "" <==> r == Everything
  {
    if q == "" then Everything
    else AnyOf([MatchesIgnoringCase(first, q), MatchesIgnoringCase(second, q)])
  }

  /** `list_clientes` searches `nombre` then `email`. */
  function CustomerWebQuery(q: string): (r: Query)
    ensures forall d :: Selects(r, d) <==>
      q == "" ||
      ("nombre" in d && ContainsIgnoringCase(d["nombre"], q)) ||
      ("email" in d && ContainsIgnoringCase(d["email"], q))
  {
    WebQuerySelects(q, "nombre", "email");
    WebQuery(q, "nombre", "email")
  }

  /** `list_productos` searches `sku` then `nombre`. */
  function ProductWebQuery(q: string): (r: Query)
    ensures forall d :: Selects(r, d) <==>
      q == "" ||
      ("sku" in d && ContainsIgnoringCase(d["sku"], q)) ||
      ("nombre" in d && ContainsIgnoringCase(d["nombre"], q))
  {
    WebQuerySelects(q, "sku", "nombre");
    WebQuery(q, "sku", "nombre")
  }

  /** The console filter: never unrestricted, it selects exactly the
      documents in which one of the two fields equals the stripped term,
      case included. */
  function ConsoleQuery(input: string, first: string, second: string): (r: Query)
    ensures r != Everything
    ensures forall d :: Selects(r, d) <==>
      (first in d && d[first] == Strip(input)) || (second in d && d[second] == Strip(input))
  {
    var term := Strip(input);
    EitherEquals(first, second, term);
    AnyOf([Equals(first, term), Equals(second, term)])
  }

  /** A two-way `$or` of exact comparisons holds when either comparison does. */
  lemma EitherEquals(first: string, second: string, term: string)
    ensures forall d :: Selects(AnyOf([Equals(first, term), Equals(second, term)]), d) <==>
      (first in d && d[first] == term) || (second in d && d[second] == term)
  {
    var cs := [Equals(first, term), Equals(second, term)];
    forall d: Document ensures Selects(AnyOf(cs), d) <==>
      (first in d && d[first] == term) || (second in d && d[second] == term)
    {
      if first in d && d[first] == term { assert Holds(cs[0], d); }
      if second in d && d[second] == term { assert Holds(cs[1], d); }
    }
  }

  /** `buscar_cliente` compares `email` then `nombre`. */
  function CustomerConsoleQuery(input: string): (r: Query)
    ensures forall d :: Selects(r, d) <==>
      ("email" in d && d["email"] == Strip(input)) ||
      ("nombre" in d && d["nombre"] == Strip(input))
  {
    ConsoleQuery(input, "email", "nombre")
  }

  /** `buscar_producto` compares `sku` then `nombre`. */
  function ProductConsoleQuery(input: string): (r: Query)
    ensures forall d :: Selects(r, d) <==>
      ("sku" in d && d["sku"] == Strip(input)) ||
      ("nombre" in d && d["nombre"] == Strip(input))
  {
    ConsoleQuery(input, "sku", "nombre")
  }

  /** What the web filter selects: every document for an empty query;
      otherwise exactly the documents in which one of the two fields contains
      the query, ignoring case. */
  lemma WebQueryMeaning(q: string, first: string, second: string, d: Document)
    ensures Selects(WebQuery(q, first, second), d) <==>
      q == "" ||
      (first in d && ContainsIgnoringCase(d[first], q)) ||
      (second in d && ContainsIgnoringCase(d[second], q))
  {
    if q != "" {
      var cs := WebQuery(q, first, second).conditions;
      if first in d && ContainsIgnoringCase(d[first], q) { assert Holds(cs[0], d); }
      if second in d && ContainsIgnoringCase(d[second], q) { assert Holds(cs[1], d); }
    }
  }

  /** What the console filter selects: exactly the documents in which one of
      the two fields equals the stripped term, case included. */
  lemma ConsoleQueryMeaning(input: string, first: string, second: string, d: Document)
    ensures Selects(ConsoleQuery(input, first, second), d) <==>
      (first in d && d[first] == Strip(input)) || (second in d && d[second] == Strip(input))
  {
  }

  /** `WebQueryMeaning` for every document at once. */
  lemma WebQuerySelects(q: string, first: string, second: string)
    ensures forall d :: Selects(WebQuery(q, first, second), d) <==>
      q == "" ||
      (first in d && ContainsIgnoringCase(d[first], q)) ||
      (second in d && ContainsIgnoringCase(d[second], q))
  {
    forall d: Document ensures Selects(WebQuery(q, first, second), d) <==>
      q == "" ||
      (first in d && ContainsIgnoringCase(d[first], q)) ||
      (second in d && ContainsIgnoringCase(d[second], q))
    {
      WebQueryMeaning(q, first, second, d);
    }
  }

  /** Every text contains itself, whatever the case. */
  lemma ContainsItself(s: string)
    ensures ContainsIgnoringCase(s, s)
  {
    var t := Lower(s);
    assert t[..|t|] == t;
  }

  /** A console hit is a web hit for the same term and fields: exact
      equality is a case-insensitive substring match. */
  lemma ConsoleHitIsWebHit(input: string, first: string, second: string, d: Document)
    requires Selects(ConsoleQuery(input, first, second), d)
    ensures Selects(WebQuery(Strip(input), first, second), d)
  {
    ConsoleQueryMeaning(input, first, second, d);
    WebQueryMeaning(Strip(input), first, second, d);
    if first in d && d[first] == Strip(input) {
      ContainsItself(d[first]);
    } else {
      ContainsItself(d[second]);
    }
  }

  /** The two front ends disagree on an empty term: the web lists every
      document, the console only those with an empty field. */
  lemma EmptyTermDiffers(input: string, first: string, second: string, d: Document)
    requires Strip(input) == ""
    requires first in d && second in d && d[first] != "" && d[second] != ""
    ensures Selects(WebQuery(Strip(input), first, second), d)
    ensures !Selects(ConsoleQuery(input, first, second), d)
  {
    ConsoleQueryMeaning(input, first, second, d);
  }

  /** The query "jo" matches "John" and "MOJO" but not "Amy". */
  lemma CaseInsensitiveExample()
    ensures ContainsIgnoringCase("John", "jo")
    ensures ContainsIgnoringCase("MOJO", "jo")
    ensures !ContainsIgnoringCase("Amy", "jo")
  {
    assert Lower("jo") == "jo";
    var john := Lower("John");
    assert john[0] == 'j' && john[1] == 'o';
    assert john[..2] == "jo";
    var mojo := Lower("MOJO");
    assert mojo[1] == 'o' && mojo[2] == 'j' && mojo[3] == 'o';
    assert mojo[2..][..2] == "jo";
    assert Contains(mojo[2..], "jo");
    assert mojo[1..][1..] == mojo[2..];
    assert Contains(mojo[1..], "jo");
    var amy := Lower("Amy");
    assert amy == "amy" by {
      assert amy[0] == 'a' && amy[1] == 'm' && amy[2] == 'y';
    }
    assert !Contains("", "jo");
    assert !Contains("y", "jo");
    assert "my"[1..] == "y";
    assert !Contains("my", "jo");
    assert "amy"[1..] == "my";
    assert !Contains("amy", "jo");
  }
}

=== FILE: text.dfy ===
/** The parts of Python's `str` and `int` that the item parsers, the search
    filters and the menus rely on: `strip()`, `split(sep)`, `int(s.strip())`, `str(n)`,
    ASCII lower-casing and substring containment. */
module Text {
  import opened Wrappers

  // ---------------------------------------------------------------- whitespace

  /** The ASCII characters `str.strip()` removes: space, tab, line feed,
      vertical tab, form feed, carriage return and the four separators
      0x1C-0x1F. */
  predicate IsSpace(c: char) {
    c == ' ' || ('\t' <= c <= '\r') || ('\U{1C}' <= c <= '\U{1F}')
  }

  predicate AllSpace(s: string) {
    forall k :: 0 <= k < |s| ==> IsSpace(s[k])
  }

  /** Neither the first nor the last character is whitespace. */
  predicate NoSpaceEnds(s: string) {
    |s| == 0 || (!IsSpace(s[0]) && !IsSpace(s[|s| - 1]))
  }

  /** The first position at or after `i` that does not hold whitespace, or `|s|`. */
  function SkipForward(s: string, i: nat): (e: nat)
    requires i <= |s|
    ensures i <= e <= |s|
    decreases |s| - i
  {
    if i < |s| && IsSpace(s[i]) then SkipForward(s, i + 1) else i
  }

  /** The first position at or before `j` from which on up to `j` there is
      only whitespace. */
  function SkipBackward(s: string, j: nat): (b: nat)
    requires j <= |s|
    ensures b <= j
    decreases j
  {
    if j > 0 && IsSpace(s[j - 1]) then SkipBackward(s, j - 1) else j
  }

  /** The forward skip passes over whitespace only and stops at the end or
      at a non-whitespace character. */
  lemma {:induction false} SkipForwardShape(s: string, i: nat)
    requires i <= |s|
    ensures forall k :: i <= k < SkipForward(s, i) ==> IsSpace(s[k])
    ensures SkipForward(s, i) == |s| || !IsSpace(s[SkipForward(s, i)])
    decreases |s| - i
  {
    if i < |s| && IsSpace(s[i]) {
      SkipForwardShape(s, i + 1);
    }
  }

  /** The backward skip passes over whitespace only and stops at the start
      or after a non-whitespace character. */
  lemma {:induction false} SkipBackwardShape(s: string, j: nat)
    requires j <= |s|
    ensures forall k :: SkipBackward(s, j) <= k < j ==> IsSpace(s[k])
    ensures SkipBackward(s, j) == 0 || !IsSpace(s[SkipBackward(s, j) - 1])
    decreases j
  {
    if j > 0 && IsSpace(s[j - 1]) {
      SkipBackwardShape(s, j - 1);
    }
  }

  /** Conversely, whitespace from `i` to `e` followed by the end or by a
      non-whitespace character is exactly what the forward skip passes. */
  lemma {:induction false} SkipForwardAt(s: string, i: nat, e: nat)
    requires i <= e <= |s|
    requires forall k :: i <= k < e ==> IsSpace(s[k])
    requires e == |s| || !IsSpace(s[e])
    ensures SkipForward(s, i) == e
    decreases e - i
  {
    if i < e {
      SkipForwardAt(s, i + 1, e);
    }
  }

  /** Whitespace from `b` to `j` preceded by the start or by a
      non-whitespace character is exactly what the backward skip passes. */
  lemma {:induction false} SkipBackwardAt(s: string, j: nat, b: nat)
    requires b <= j <= |s|
    requires forall k :: b <= k < j ==> IsSpace(s[k])
    requires b == 0 || !IsSpace(s[b - 1])
    ensures SkipBackward(s, j) == b
    decreases j - b
  {
    if b < j {
      SkipBackwardAt(s, j - 1, b);
    }
  }

  /** In a string that is not all whitespace the first non-whitespace
      character comes before the end of the last one. */
  lemma StripBounds(s: string)
    requires SkipForward(s, 0) < |s|
    ensures SkipForward(s, 0) < SkipBackward(s, |s|)
    ensures !IsSpace(s[SkipForward(s, 0)])
    ensures !IsSpace(s[SkipBackward(s, |s|) - 1])
  {
    SkipForwardShape(s, 0);
    SkipBackwardShape(s, |s|);
  }

  /** Python's `s.strip()`: the input without its leading and trailing
      whitespace. The result neither starts nor ends with whitespace. */
  function Strip(s: string): (r: string)
    ensures NoSpaceEnds(r)
    ensures |r| <= |s|
  {
    var a := SkipForward(s, 0);
    if a == |s| then ""
    else
      StripBounds(s);
      s[a..SkipBackward(s, |s|)]
  }

  /** Every string is its stripped form with whitespace on either side. */
  lemma Padding(s: string) returns (w1: string, w2: string)
    ensures AllSpace(w1) && AllSpace(w2)
    ensures s == w1 + Strip(s) + w2
  {
    var a := SkipForward(s, 0);
    SkipForwardShape(s, 0);
    SpaceSlice(s, 0, a);
    if a == |s| {
      w1, w2 := s[0..a], "";
      assert s == w1 + "" + "";
    } else {
      StripBounds(s);
      SkipBackwardShape(s, |s|);
      var b := SkipBackward(s, |s|);
      SpaceSlice(s, b, |s|);
      w1, w2 := s[0..a], s[b..|s|];
      assert s == s[0..a] + s[a..b] + s[b..|s|];
    }
  }

  lemma SpaceSlice(s: string, i: nat, j: nat)
    requires i <= j <= |s|
    requires forall k :: i <= k < j ==> IsSpace(s[k])
    ensures AllSpace(s[i..j])
  {
    forall k | 0 <= k < j - i ensures IsSpace(s[i..j][k]) {
      assert s[i..j][k] == s[i + k];
    }
  }

  lemma AllSpaceConcat(a: string, b: string)
    requires AllSpace(a) && AllSpace(b)
    ensures AllSpace(a + b)
  {
    forall k | 0 <= k < |a + b| ensures IsSpace((a + b)[k]) {
      if k < |a| { assert (a + b)[k] == a[k]; } else { assert (a + b)[k] == b[k - |a|]; }
    }
  }

  /** Whitespace in front moves the first non-whitespace character by its length. */
  lemma SkipForwardAppend(w: string, x: string)
    requires AllSpace(w)
    ensures SkipForward(w + x, 0) == |w| + SkipForward(x, 0)
  {
    var e := SkipForward(x, 0);
    SkipForwardShape(x, 0);
    forall k | 0 <= k < |w| + e ensures IsSpace((w + x)[k]) {
      if k < |w| { assert (w + x)[k] == w[k]; } else { assert (w + x)[k] == x[k - |w|]; }
    }
    if e < |x| {
      assert (w + x)[|w| + e] == x[e];
    }
    SkipForwardAt(w + x, 0, |w| + e);
  }

  /** Text after a non-blank string does not move its first non-whitespace character. */
  lemma SkipForwardBefore(x: string, w: string)
    requires SkipForward(x, 0) < |x|
    ensures SkipForward(x + w, 0) == SkipForward(x, 0)
  {
    var e := SkipForward(x, 0);
    SkipForwardShape(x, 0);
    forall k | 0 <= k < e ensures IsSpace((x + w)[k]) {
      assert (x + w)[k] == x[k];
    }
    assert (x + w)[e] == x[e];
    SkipForwardAt(x + w, 0, e);
  }

  /** Whitespace behind does not move the end of the last non-whitespace character. */
  lemma SkipBackwardAppend(x: string, w: string)
    requires AllSpace(w)
    ensures SkipBackward(x + w, |x + w|) == SkipBackward(x, |x|)
  {
    var b := SkipBackward(x, |x|);
    SkipBackwardShape(x, |x|);
    forall k | b <= k < |x + w| ensures IsSpace((x + w)[k]) {
      if k < |x| { assert (x + w)[k] == x[k]; } else { assert (x + w)[k] == w[k - |x|]; }
    }
    if b > 0 {
      assert (x + w)[b - 1] == x[b - 1];
    }
    SkipBackwardAt(x + w, |x + w|, b);
  }

  /** Text in front of a non-blank string moves the end of its last
      non-whitespace character by its length. */
  lemma SkipBackwardAfter(w: string, x: string)
    requires SkipForward(x, 0) < |x|
    ensures SkipBackward(w + x, |w + x|) == |w| + SkipBackward(x, |x|)
  {
    var b := SkipBackward(x, |x|);
    StripBounds(x);
    SkipBackwardShape(x, |x|);
    forall k | |w| + b <= k < |w + x| ensures IsSpace((w + x)[k]) {
      assert (w + x)[k] == x[k - |w|];
    }
    assert (w + x)[|w| + b - 1] == x[b - 1];
    SkipBackwardAt(w + x, |w + x|, |w| + b);
  }

  /** Whitespace added in front does not change the stripped form. */
  lemma StripIgnoresLeading(w: string, x: string)
    requires AllSpace(w)
    ensures Strip(w + x) == Strip(x)
  {
    if SkipForward(x, 0) < |x| {
      StripIgnoresLeadingCore(w, x);
    } else {
      SkipForwardAppend(w, x);
    }
  }

  lemma StripIgnoresLeadingCore(w: string, x: string)
    requires AllSpace(w) && SkipForward(x, 0) < |x|
    ensures Strip(w + x) == Strip(x)
  {
    SkipForwardAppend(w, x);
    SkipBackwardAfter(w, x);
    StripShifted(w, x);
  }

  /** A prefix that shifts both skips by its length leaves the stripped form alone. */
  lemma StripShifted(w: string, x: string)
    requires SkipForward(x, 0) < |x|
    requires SkipForward(w + x, 0) == |w| + SkipForward(x, 0)
    requires SkipBackward(w + x, |w + x|) == |w| + SkipBackward(x, |x|)
    ensures Strip(w + x) == Strip(x)
  {
    var a, b := SkipForward(x, 0), SkipBackward(x, |x|);
    StripBounds(x);
    assert Strip(x) == x[a..b];
    assert Strip(w + x) == (w + x)[|w| + a..|w| + b];
    SliceOfConcat(w, x, a, b);
  }

  /** Kept apart from `StripShifted`: proved there, this step is expensive. */
  lemma SliceOfConcat(w: string, x: string, i: nat, j: nat)
    requires i <= j <= |x|
    ensures (w + x)[|w| + i..|w| + j] == x[i..j]
  {
  }

  /** Whitespace added behind does not change the stripped form. */
  lemma StripIgnoresTrailing(x: string, w: string)
    requires AllSpace(w)
    ensures Strip(x + w) == Strip(x)
  {
    var a := SkipForward(x, 0);
    if a == |x| {
      SkipForwardShape(x, 0);
      AllSpaceConcat(x, w);
      StripOfBlank(x + w);
    } else {
      StripIgnoresTrailingCore(x, w);
    }
  }

  lemma StripIgnoresTrailingCore(x: string, w: string)
    requires AllSpace(w) && SkipForward(x, 0) < |x|
    ensures Strip(x + w) == Strip(x)
  {
    SkipForwardBefore(x, w);
    SkipBackwardAppend(x, w);
    StripExtended(x, w);
  }

  /** A suffix that moves neither skip leaves the stripped form alone. */
  lemma StripExtended(x: string, w: string)
    requires SkipForward(x, 0) < |x|
    requires SkipForward(x + w, 0) == SkipForward(x, 0)
    requires SkipBackward(x + w, |x + w|) == SkipBackward(x, |x|)
    ensures Strip(x + w) == Strip(x)
  {
    StripBounds(x);
    var a, b := SkipForward(x, 0), SkipBackward(x, |x|);
    assert (x + w)[a..b] == x[a..b];
  }

  /** Whitespace added around a string does not change its stripped form. */
  lemma StripIgnoresPadding(w1: string, x: string, w2: string)
    requires AllSpace(w1) && AllSpace(w2)
    ensures Strip(w1 + x + w2) == Strip(x)
  {
    assert w1 + x + w2 == w1 + (x + w2);
    StripIgnoresLeading(w1, x + w2);
    StripIgnoresTrailing(x, w2);
  }

  /** A string that is all whitespace strips to the empty string. */
  lemma StripOfBlank(s: string)
    requires AllSpace(s)
    ensures Strip(s) == ""
  {
    SkipForwardAt(s, 0, |s|);
  }

  /** A string without whitespace ends is its own stripped form. */
  lemma StripOfStripped(m: string)
    requires NoSpaceEnds(m)
    ensures Strip(m) == m
  {
    if |m| > 0 {
      assert SkipForward(m, 0) == 0;
      assert SkipBackward(m, |m|) == |m|;
      assert m[0..|m|] == m;
    }
  }

  /** Stripping is determined by any decomposition into whitespace, a core
      without whitespace ends, and whitespace. */
  lemma StripPadded(w1: string, m: string, w2: string)
    requires AllSpace(w1) && AllSpace(w2) && NoSpaceEnds(m)
    ensures Strip(w1 + m + w2) == m
  {
    StripIgnoresPadding(w1, m, w2);
    StripOfStripped(m);
  }

  /** `strip()` is idempotent. */
  lemma StripIdempotent(s: string)
    ensures Strip(Strip(s)) == Strip(s)
  {
    StripOfStripped(Strip(s));
  }

  /** Stripping removes no character other than whitespace. */
  lemma StripCount(s: string, c: char)
    requires !IsSpace(c)
    ensures multiset(Strip(s))[c] == multiset(s)[c]
  {
    var w1, w2 := Padding(s);
    assert multiset(s) == multiset(w1) + multiset(Strip(s)) + multiset(w2);
    assert c !in w1 && c !in w2;
  }

  /** A string that is all whitespace strips to the empty string, and only such a one does. */
  lemma StripEmptyIffBlank(s: string)
    ensures Strip(s) == "" <==> AllSpace(s)
  {
    if AllSpace(s) {
      StripOfBlank(s);
    }
    if SkipForward(s, 0) < |s| {
      StripBounds(s);
    } else {
      SkipForwardShape(s, 0);
    }
  }

  // ---------------------------------------------------------------- split

  /** Python's `s.split(sep)` for a one-character separator: the pieces
      between consecutive occurrences of `sep`, empty pieces included, so
      there is always one more piece than there are separators. */
  function Split(s: string, sep: char): (parts: seq<string>)
    ensures |parts| == multiset(s)[sep] + 1
    ensures forall i :: 0 <= i < |parts| ==> sep !in parts[i]
    decreases |s|
  {
    if |s| == 0 then [""]
    else
      var rest := Split(s[1..], sep);
      assert s == [s[0]] + s[1..];
      assert multiset(s) == multiset([s[0]]) + multiset(s[1..]);
      if s[0] == sep then [""] + rest
      else [[s[0]] + rest[0]] + rest[1..]
  }

  /** Python's `sep.join(parts)`. */
  function Join(parts: seq<string>, sep: char): string
    decreases |parts|
  {
    if |parts| == 0 then ""
    else if |parts| == 1 then parts[0]
    else parts[0] + [sep] + Join(parts[1..], sep)
  }

  /** Prepending a character to the first piece prepends it to the join. */
  lemma JoinConsFirst(c: char, parts: seq<string>, sep: char)
    requires |parts| > 0
    ensures Join([[c] + parts[0]] + parts[1..], sep) == [c] + Join(parts, sep)
  {
    var ps := [[c] + parts[0]] + parts[1..];
    assert ps[1..] == parts[1..];
  }

  /** Joining the pieces with the separator gives the input back. */
  lemma {:induction false} JoinSplit(s: string, sep: char)
    ensures Join(Split(s, sep), sep) == s
    decreases |s|
  {
    if |s| > 0 {
      JoinSplit(s[1..], sep);
      var rest := Split(s[1..], sep);
      if s[0] == sep {
        assert ([""] + rest)[1..] == rest;
      } else {
        JoinConsFirst(s[0], rest, sep);
      }
      assert [s[0]] + s[1..] == s;
    }
  }

  /** Splitting a join gives the pieces back when no piece holds the separator. */
  lemma {:induction false} SplitJoin(parts: seq<string>, sep: char)
    requires |parts| > 0
    requires forall i :: 0 <= i < |parts| ==> sep !in parts[i]
    ensures Split(Join(parts, sep), sep) == parts
    decreases |parts|
  {
    if |parts| == 1 {
      SplitNoSeparator(parts[0], sep);
    } else {
      SplitJoin(parts[1..], sep);
      SplitAtSeparator(parts[0], Join(parts[1..], sep), sep);
      assert [parts[0]] + parts[1..] == parts;
    }
  }

  /** A character absent from the input is absent from every piece. */
  lemma {:induction false} SplitChars(s: string, sep: char, c: char)
    requires c !in s
    ensures forall i :: 0 <= i < |Split(s, sep)| ==> c !in Split(s, sep)[i]
    decreases |s|
  {
    if |s| > 0 {
      SplitChars(s[1..], sep, c);
    }
  }

  /** A string without the separator splits into itself. */
  lemma {:induction false} SplitNoSeparator(s: string, sep: char)
    requires sep !in s
    ensures Split(s, sep) == [s]
    decreases |s|
  {
    if |s| > 0 {
      SplitNoSeparator(s[1..], sep);
      assert [s[0]] + s[1..] == s;
    }
  }

  /** The first separator ends the first piece. */
  lemma {:induction false} SplitAtSeparator(a: string, b: string, sep: char)
    requires sep !in a
    ensures Split(a + [sep] + b, sep) == [a] + Split(b, sep)
    decreases |a|
  {
    if |a| == 0 {
      assert a + [sep] + b == [sep] + b;
      assert ([sep] + b)[1..] == b;
    } else {
      var s := a + [sep] + b;
      assert s[1..] == a[1..] + [sep] + b;
      SplitAtSeparator(a[1..], b, sep);
      assert [a[0]] + a[1..] == a;
    }
  }

  /** Two separator-free strings around one separator split into exactly those two. */
  lemma SplitPair(a: string, b: string, sep: char)
    requires sep !in a && sep !in b
    ensures Split(a + [sep] + b, sep) == [a, b]
  {
    SplitAtSeparator(a, b, sep);
    SplitNoSeparator(b, sep);
  }

  /** Text without the separator in front of a string joins its first piece. */
  lemma {:induction false} SplitPrefix(w: string, m: string, sep: char)
    requires sep !in w
    ensures Split(w + m, sep) == [w + Split(m, sep)[0]] + Split(m, sep)[1..]
    decreases |w|
  {
    var p := Split(m, sep);
    if |w| == 0 {
      assert w + m == m;
      assert w + p[0] == p[0];
      assert [p[0]] + p[1..] == p;
    } else {
      assert (w + m)[1..] == w[1..] + m;
      SplitPrefix(w[1..], m, sep);
      assert [w[0]] + (w[1..] + p[0]) == w + p[0];
    }
  }

  /** Text without the separator behind a string joins its last piece. */
  lemma {:induction false} SplitSuffix(m: string, w: string, sep: char)
    requires sep !in w
    ensures var p := Split(m, sep);
      Split(m + w, sep) == p[..|p| - 1] + [p[|p| - 1] + w]
    decreases |m|
  {
    if |m| == 0 {
      assert m + w == w;
      SplitNoSeparator(w, sep);
    } else {
      assert (m + w)[1..] == m[1..] + w;
      SplitSuffix(m[1..], w, sep);
      if m[0] == sep {
        SplitSuffixSeparator(m, w, sep);
      } else {
        SplitSuffixOther(m, w, sep);
      }
    }
  }

  /** The step of `SplitSuffix` for an input starting with the separator. */
  lemma SplitSuffixSeparator(m: string, w: string, sep: char)
    requires |m| > 0 && m[0] == sep && (m + w)[1..] == m[1..] + w
    requires var q := Split(m[1..], sep);
      Split(m[1..] + w, sep) == q[..|q| - 1] + [q[|q| - 1] + w]
    ensures var p := Split(m, sep);
      Split(m + w, sep) == p[..|p| - 1] + [p[|p| - 1] + w]
  {
    var q := Split(m[1..], sep);
    var p := Split(m, sep);
    assert p == [""] + q;
    assert Split(m + w, sep) == [""] + Split(m[1..] + w, sep);
    assert p[..|p| - 1] == [""] + q[..|q| - 1];
    assert p[|p| - 1] == q[|q| - 1];
  }

  /** The step of `SplitSuffix` for an input starting with another character. */
  lemma SplitSuffixOther(m: string, w: string, sep: char)
    requires |m| > 0 && m[0] != sep && (m + w)[1..] == m[1..] + w
    requires var q := Split(m[1..], sep);
      Split(m[1..] + w, sep) == q[..|q| - 1] + [q[|q| - 1] + w]
    ensures var p := Split(m, sep);
      Split(m + w, sep) == p[..|p| - 1] + [p[|p| - 1] + w]
  {
    var q := Split(m[1..], sep);
    var p := Split(m, sep);
    var t := Split(m[1..] + w, sep);
    assert p == [[m[0]] + q[0]] + q[1..];
    assert Split(m + w, sep) == [[m[0]] + t[0]] + t[1..];
    ExtendFirstAndLast(m[0], q, t, w);
  }

  /** Extending the last piece commutes with extending the first piece. */
  lemma ExtendFirstAndLast(c: char, q: seq<string>, t: seq<string>, w: string)
    requires |q| > 0 && t == q[..|q| - 1] + [q[|q| - 1] + w]
    ensures var p := [[c] + q[0]] + q[1..];
      [[c] + t[0]] + t[1..] == p[..|p| - 1] + [p[|p| - 1] + w]
  {
    var p := [[c] + q[0]] + q[1..];
    if |q| == 1 {
      assert t == [q[0] + w];
      assert [c] + (q[0] + w) == ([c] + q[0]) + w;
    } else {
      assert t[0] == q[0];
      assert t[1..] == q[1..|q| - 1] + [q[|q| - 1] + w];
      assert p[..|p| - 1] == [[c] + q[0]] + q[1..|q| - 1];
    }
  }

  /** Text without the separator on both sides of a string joins its first
      and its last piece and leaves the pieces in between alone. */
  lemma SplitSurrounded(w1: string, m: string, w2: string, sep: char)
    requires sep !in w1 && sep !in w2
    ensures var p, r := Split(m, sep), Split(w1 + m + w2, sep);
      && |r| == |p|
      && (|p| == 1 ==> r[0] == w1 + p[0] + w2)
      && (|p| > 1 ==> r[0] == w1 + p[0] && r[|p| - 1] == p[|p| - 1] + w2)
      && (forall k :: 0 < k < |p| - 1 ==> r[k] == p[k])
  {
    var p := Split(m, sep);
    var q := Split(m + w2, sep);
    SplitSuffix(m, w2, sep);
    assert q == p[..|p| - 1] + [p[|p| - 1] + w2];
    assert w1 + m + w2 == w1 + (m + w2);
    SplitPrefix(w1, m + w2, sep);
    var r := Split(w1 + m + w2, sep);
    assert r == [w1 + q[0]] + q[1..];
    if |p| == 1 {
      assert q[0] == p[0] + w2;
    } else {
      assert q[0] == p[0];
    }
  }

  /** Whitespace around a string changes neither how many pieces it splits
      into (for a non-whitespace separator) nor any piece's stripped form. */
  lemma SplitPaddedPieces(w1: string, m: string, w2: string, sep: char)
    requires AllSpace(w1) && AllSpace(w2) && !IsSpace(sep)
    ensures |Split(w1 + m + w2, sep)| == |Split(m, sep)|
    ensures forall k :: 0 <= k < |Split(m, sep)| ==>
              Strip(Split(w1 + m + w2, sep)[k]) == Strip(Split(m, sep)[k])
  {
    SplitSurrounded(w1, m, w2, sep);
    forall k | 0 <= k < |Split(m, sep)|
      ensures Strip(Split(w1 + m + w2, sep)[k]) == Strip(Split(m, sep)[k])
    {
      SplitPaddedPiece(w1, m, w2, sep, k);
    }
  }

  lemma SplitPaddedPiece(w1: string, m: string, w2: string, sep: char, k: nat)
    requires AllSpace(w1) && AllSpace(w2) && !IsSpace(sep)
    requires k < |Split(m, sep)|
    ensures |Split(w1 + m + w2, sep)| == |Split(m, sep)|
    ensures Strip(Split(w1 + m + w2, sep)[k]) == Strip(Split(m, sep)[k])
  {
    var u, v := PaddedPiece(w1, m, w2, sep, k);
    StripIgnoresPadding(u, Split(m, sep)[k], v);
  }

  /** Piece `k` of a padded string is piece `k` of the string with some of
      the padding around it. */
  lemma PaddedPiece(w1: string, m: string, w2: string, sep: char, k: nat) returns (u: string, v: string)
    requires AllSpace(w1) && AllSpace(w2) && !IsSpace(sep)
    requires k < |Split(m, sep)|
    ensures |Split(w1 + m + w2, sep)| == |Split(m, sep)|
    ensures AllSpace(u) && AllSpace(v)
    ensures Split(w1 + m + w2, sep)[k] == u + Split(m, sep)[k] + v
  {
    NotInBlank(w1, sep);
    NotInBlank(w2, sep);
    SplitSurrounded(w1, m, w2, sep);
    var p, r := Split(m, sep), Split(w1 + m + w2, sep);
    if k == 0 && |p| == 1 {
      u, v := w1, w2;
    } else if k == 0 {
      u, v := w1, "";
      assert r[0] == w1 + p[0];
      assert w1 + p[0] + "" == w1 + p[0];
    } else if k == |p| - 1 {
      u, v := "", w2;
      assert r[k] == p[k] + w2;
      assert "" + p[k] + w2 == p[k] + w2;
    } else {
      u, v := "", "";
      assert r[k] == p[k];
      assert "" + p[k] + "" == p[k];
    }
  }


  /** A character that is not whitespace does not occur in whitespace. */
  lemma NotInBlank(w: string, c: char)
    requires AllSpace(w) && !IsSpace(c)
    ensures c !in w
  {
  }

  // ---------------------------------------------------------------- integers

  predicate IsDigit(c: char) {
    '0' <= c <= '9'
  }

  /** One or more ASCII decimal digits. */
  predicate IsDigits(s: string) {
    |s| > 0 && forall k :: 0 <= k < |s| ==> IsDigit(s[k])
  }

  /** What Python's `int()` accepts once surrounding whitespace is gone:
      an optional sign followed by decimal digits. */
  predicate IsIntLiteral(s: string) {
    IsDigits(s) || (|s| > 0 && (s[0] == '+' || s[0] == '-') && IsDigits(s[1..]))
  }

  function DigitValue(c: char): nat
    requires IsDigit(c)
  {
    (c as int) - ('0' as int)
  }

  function DigitChar(d: nat): char
    requires d < 10
  {
    ('0' as int + d) as char
  }

  /** The value of a digit string, most significant digit first. */
  function DigitsValue(s: string): nat
    requires forall k :: 0 <= k < |s| ==> IsDigit(s[k])
  {
    if |s| == 0 then 0 else DigitsValue(s[..|s| - 1]) * 10 + DigitValue(s[|s| - 1])
  }

  /** Python's `int(s.strip())` on a `str`, with `None` for the `ValueError`
      it raises: whitespace `str.strip()` removes around the literal is
      ignored, a literal is an optional sign and decimal digits, and nothing
      else is accepted. Every call site strips first, so this is what each
      of them computes. */
  function ParseInt(s: string): (r: Option<int>)
    ensures r.Some? <==> IsIntLiteral(Strip(s))
    ensures r.Some? && IsDigits(Strip(s)) ==> r.value >= 0
  {
    LiteralValue(Strip(s))
  }

  /** The value of a literal that has no whitespace around it. */
  function LiteralValue(t: string): Option<int> {
    if IsDigits(t) then Some(DigitsValue(t))
    else if IsIntLiteral(t) then
      var magnitude: int := DigitsValue(t[1..]);
      if t[0] == '-' then Some(-magnitude) else Some(magnitude)
    else None
  }

  /** `int()` strips its argument itself. */
  lemma ParseIntStripped(s: string)
    ensures ParseInt(Strip(s)) == ParseInt(s)
  {
    StripIdempotent(s);
  }

  /** Python's `str(n)` for a natural number: no sign, no leading zero. */
  function ShowNat(n: nat): (s: string)
    ensures IsDigits(s)
    ensures DigitsValue(s) == n
    ensures s[0] != '0' || n == 0
  {
    if n < 10 then [DigitChar(n)]
    else
      var s := ShowNat(n / 10) + [DigitChar(n % 10)];
      assert s[..|s| - 1] == ShowNat(n / 10);
      s
  }

  /** Python's `str(n)` for an integer. */
  function Show(n: int): (s: string)
    ensures |s| > 0 && !IsSpace(s[0]) && !IsSpace(s[|s| - 1])
    ensures IsIntLiteral(s)
  {
    if n < 0 then "-" + ShowNat(-n) else ShowNat(n)
  }

  /** `int(str(n)) == n`. */
  lemma ParseShow(n: int)
    ensures ParseInt(Show(n)) == Some(n)
  {
    var s := Show(n);
    StripIdempotent(s);
    assert Strip(s) == s by {
      assert [] + s + [] == s;
      StripPadded([], s, []);
    }
    if n < 0 {
      assert s[1..] == ShowNat(-n);
    }
  }

  /** Zero or more '0' characters. */
  predicate AllZeros(z: string) {
    forall k :: 0 <= k < |z| ==> z[k] == '0'
  }

  /** A run of zeros is worth 0. */
  lemma {:induction false} ZerosValue(z: string)
    requires AllZeros(z)
    ensures forall k :: 0 <= k < |z| ==> IsDigit(z[k])
    ensures DigitsValue(z) == 0
    decreases |z|
  {
    if |z| > 0 {
      ZerosValue(z[..|z| - 1]);
    }
  }

  /** Leading zeros do not change the value of a digit string. */
  lemma {:induction false} LeadingZeros(z: string, s: string)
    requires AllZeros(z)
    requires forall k :: 0 <= k < |s| ==> IsDigit(s[k])
    ensures forall k :: 0 <= k < |z + s| ==> IsDigit((z + s)[k])
    ensures DigitsValue(z + s) == DigitsValue(s)
    decreases |s|
  {
    ZerosValue(z);
    assert forall k :: 0 <= k < |z + s| ==> IsDigit((z + s)[k]) by {
      forall k | 0 <= k < |z + s| ensures IsDigit((z + s)[k]) {
        if k < |z| { assert (z + s)[k] == z[k]; } else { assert (z + s)[k] == s[k - |z|]; }
      }
    }
    if |s| == 0 {
      assert z + s == z;
    } else {
      var t := z + s;
      assert t[..|t| - 1] == z + s[..|s| - 1];
      assert t[|t| - 1] == s[|s| - 1];
      LeadingZeros(z, s[..|s| - 1]);
    }
  }

  /** The optional sign in front of an integer literal. */
  datatype Sign = NoSign | Plus | Minus

  function SignText(sg: Sign): string {
    match sg
    case NoSign => ""
    case Plus => "+"
    case Minus => "-"
  }

  /** The value a sign gives a magnitude. */
  function Signed(sg: Sign, n: nat): int {
    if sg == Minus then -(n as int) else n as int
  }

  /** Zeros in front of a canonical numeral leave a digit string of the
      numeral's value. */
  lemma ZerosNumeral(z: string, n: nat)
    requires AllZeros(z)
    ensures IsDigits(z + ShowNat(n)) && DigitsValue(z + ShowNat(n)) == n
  {
    LeadingZeros(z, ShowNat(n));
  }

  /** A sign in front of a digit string: the literal has no whitespace ends
      and is worth the digits' value, negated after '-'. */
  lemma SignedLiteral(sg: Sign, u: string)
    requires IsDigits(u)
    ensures NoSpaceEnds(SignText(sg) + u)
    ensures LiteralValue(SignText(sg) + u) == Some(Signed(sg, DigitsValue(u)))
  {
    var t := SignText(sg) + u;
    assert t[|t| - 1] == u[|u| - 1];
    if sg == NoSign {
      assert t == u;
    } else {
      assert t[0] == SignText(sg)[0];
      assert t[1..] == u;
    }
  }

  /** `int()` of an optional sign, any number of leading zeros and a
      canonical numeral: `+5`, `007`, `-0` and `-007` are 5, 7, 0 and -7. */
  lemma ParseIntCore(sg: Sign, z: string, n: nat)
    requires AllZeros(z)
    ensures NoSpaceEnds(SignText(sg) + (z + ShowNat(n)))
    ensures ParseInt(SignText(sg) + (z + ShowNat(n))) == Some(Signed(sg, n))
  {
    ZerosNumeral(z, n);
    SignedLiteral(sg, z + ShowNat(n));
    StripOfStripped(SignText(sg) + (z + ShowNat(n)));
  }

  /** Whitespace around a string without whitespace ends does not change
      what `int()` makes of it. */
  lemma ParseIntPadded(w1: string, m: string, w2: string)
    requires AllSpace(w1) && AllSpace(w2) && NoSpaceEnds(m)
    ensures ParseInt(w1 + m + w2) == ParseInt(m)
  {
    StripPadded(w1, m, w2);
    ParseIntStripped(w1 + m + w2);
  }

  /** The same literal with whitespace around it has the same value. */
  lemma ParseIntLiteral(w1: string, sg: Sign, z: string, n: nat, w2: string)
    requires AllSpace(w1) && AllSpace(w2)
    requires AllZeros(z)
    ensures ParseInt(w1 + (SignText(sg) + (z + ShowNat(n))) + w2) == Some(Signed(sg, n))
  {
    ParseIntCore(sg, z, n);
    ParseIntPadded(w1, SignText(sg) + (z + ShowNat(n)), w2);
  }

  /** A digit string with a non-zero first digit is worth at least 1. */
  lemma {:induction false} LeadingDigitPositive(s: string)
    requires IsDigits(s) && s[0] != '0'
    ensures DigitsValue(s) >= 1
    decreases |s|
  {
    if |s| > 1 {
      var p := s[..|s| - 1];
      assert p[0] == s[0];
      LeadingDigitPositive(p);
    }
  }

  /** A digit string without a leading zero (or the single digit "0") is
      what `str()` prints for its value. */
  lemma {:induction false} ShowDigits(s: string)
    requires IsDigits(s) && (s[0] != '0' || |s| == 1)
    ensures ShowNat(DigitsValue(s)) == s
    decreases |s|
  {
    if |s| == 1 {
      assert s == [s[0]];
    } else {
      var p := s[..|s| - 1];
      assert p[0] == s[0];
      LeadingDigitPositive(p);
      ShowDigits(p);
      assert s == p + [s[|s| - 1]];
    }
  }

  /** Every digit string is zeros followed by a canonical numeral. */
  lemma {:induction false} DigitsShape(t: string) returns (z: string, n: nat)
    requires IsDigits(t)
    ensures AllZeros(z) && t == z + ShowNat(n)
    decreases |t|
  {
    if |t| == 1 || t[0] != '0' {
      z, n := "", DigitsValue(t);
      ShowDigits(t);
    } else {
      var z', n' := DigitsShape(t[1..]);
      z, n := "0" + z', n';
      assert t == [t[0]] + t[1..];
    }
  }

  /** Every string `int()` accepts is whitespace around an optional sign,
      zeros and a canonical numeral, and its value is that numeral, negated
      after a '-'. With `ParseIntLiteral` this fixes the value of every
      accepted input. */
  lemma ParseIntShape(s: string) returns (sg: Sign, z: string, n: nat)
    requires ParseInt(s).Some?
    ensures AllZeros(z) && Strip(s) == SignText(sg) + (z + ShowNat(n))
    ensures ParseInt(s) == Some(Signed(sg, n))
  {
    sg, z, n := LiteralShape(Strip(s));
  }

  /** Every literal is an optional sign, zeros and a canonical numeral. */
  lemma LiteralShape(t: string) returns (sg: Sign, z: string, n: nat)
    requires LiteralValue(t).Some?
    ensures AllZeros(z) && t == SignText(sg) + (z + ShowNat(n))
    ensures LiteralValue(t) == Some(Signed(sg, n))
  {
    var u: string;
    if IsDigits(t) {
      sg, u := NoSign, t;
      assert t == SignText(sg) + u;
    } else {
      sg, u := if t[0] == '-' then Minus else Plus, t[1..];
      assert t == SignText(sg) + u;
    }
    z, n := DigitsShape(u);
    ZerosNumeral(z, n);
    SignedLiteral(sg, u);
  }

  /** `int()` on a few non-canonical spellings. */
  lemma LiteralExamples()
    ensures ParseInt("+5") == Some(5) && ParseInt("007") == Some(7)
    ensures ParseInt("-0") == Some(0) && ParseInt("-007") == Some(-7)
  {
    assert ShowNat(5) == "5" && ShowNat(7) == "7" && ShowNat(0) == "0";
    ParseIntCore(Plus, "", 5);
    assert SignText(Plus) + ("" + ShowNat(5)) == "+5";
    ParseIntCore(NoSign, "00", 7);
    assert SignText(NoSign) + ("00" + ShowNat(7)) == "007";
    ParseIntCore(Minus, "", 0);
    assert SignText(Minus) + ("" + ShowNat(0)) == "-0";
    ParseIntCore(Minus, "00", 7);
    assert SignText(Minus) + ("00" + ShowNat(7)) == "-007";
  }

  /** Digits, signs and the minus sign are not whitespace, so neither ':' nor
      ',' nor whitespace occurs in a rendered integer. */
  lemma ShowChars(n: int, c: char)
    requires c == ':' || c == ','
    ensures c !in Show(n)
  {
    var s := Show(n);
    if n >= 0 {
      assert forall k :: 0 <= k < |s| ==> IsDigit(s[k]);
    } else {
      assert forall k :: 1 <= k < |s| ==> s[k] == ShowNat(-n)[k - 1];
    }
  }

  // ---------------------------------------------------------------- matching

  /** ASCII case folding, the reading of a case-insensitive match used here. */
  function ToLower(c: char): char {
    if 'A' <= c <= 'Z' then (c as int + 32) as char else c
  }

  function Lower(s: string): (r: string)
    ensures |r| == |s|
  {
    seq(|s|, k requires 0 <= k < |s| => ToLower(s[k]))
  }

  /** `sub` occurs in `s` starting at position `i`. */
  predicate OccursAt(s: string, sub: string, i: int) {
    0 <= i && i + |sub| <= |s| && s[i..i + |sub|] == sub
  }

  /** Python's `sub in s`, by scanning start positions left to right. */
  predicate Contains(s: string, sub: string)
    decreases |s|
  {
    (|sub| <= |s| && s[..|sub|] == sub) || (|s| > 0 && Contains(s[1..], sub))
  }

  /** The scan finds `sub` exactly when it occurs somewhere in `s`. */
  lemma {:induction false} ContainsIffOccurs(s: string, sub: string)
    ensures Contains(s, sub) <==> exists i :: OccursAt(s, sub, i)
    decreases |s|
  {
    if |sub| <= |s| && s[..|sub|] == sub {
      assert OccursAt(s, sub, 0);
    }
    if |s| > 0 {
      ContainsIffOccurs(s[1..], sub);
      if exists i :: OccursAt(s[1..], sub, i) {
        var i :| OccursAt(s[1..], sub, i);
        assert s[i + 1..i + 1 + |sub|] == s[1..][i..i + |sub|];
        assert OccursAt(s, sub, i + 1);
      }
      if exists i :: OccursAt(s, sub, i) {
        var i :| OccursAt(s, sub, i);
        if i > 0 {
          assert s[1..][i - 1..i - 1 + |sub|] == s[i..i + |sub|];
          assert OccursAt(s[1..], sub, i - 1);
        }
      }
    } else {
      if exists i :: OccursAt(s, sub, i) {
        var i :| OccursAt(s, sub, i);
        assert i == 0;
      }
    }
  }

  /** Case-insensitive containment, the literal reading of a `$regex` match
      with the `i` option on a pattern without metacharacters. */
  predicate ContainsIgnoringCase(s: string, sub: string) {
    Contains(Lower(s), Lower(sub))
  }
}

=== FILE: wrappers.dfy ===
/** An optional value, for the places where the Python code either produces
    a value or raises (and the caller catches) an error. */
module Wrappers {

  /** `None` stands for "no value": a failed conversion, an absent key. */
  datatype Option<+T> = None | Some(value: T)
}
